=== FILE: README.md ===
# Balance-transfer ledger of the `transactions` service, in Dafny

This project models the core of the `transactions` service: an account store
(account id → username, balance, active flag) and an append-only log of
transaction records, with three operations over them.

- **send money**: a transfer request is validated first. A non-positive amount,
  an unknown recipient username and a transfer to oneself are rejected, and
  nothing is written. After that the transfer itself re-reads the recipient
  and the sender. It rejects a vanished recipient (422) or insufficient
  funds (400), and otherwise debits the sender and credits the recipient.
  Whatever the transfer does, exactly one record is appended, tagged
  `succeed` or `failed`.
- **update balance**: a signed delta is applied to the caller's balance. It is
  refused if the balance would become negative. No record is written.
- **list transactions**: the query parameters are bound, with limit 1..100
  (default 100) and offset ≥ 0 (default 0). An inverted date range is
  refused. The log is filtered by party, inclusive date bounds and status,
  then `offset` records are dropped and at most `limit` are kept.

The model is a pure state machine. `Routes.Ledger` holds the store, the log
and a counter for fresh record ids. The two handlers that write,
`Routes.SendMoney` and `Routes.UpdateBalance`, are functions from a ledger and
their inputs to a `Routes.Reply`, which holds the new ledger and the caller's
`Result`. The listing handler `Routes.GetTransactions` only reads: it returns
a `Result` holding the listed records, and no ledger.

Modules, following the source files:

- `schemas.dfy` (`Schemas`): the entities, the error taxonomy with its HTTP
  codes, and the request-binding constraints of `transactions/api/schemas.py`.
- `balances.dfy` (`Balances`): the store type, its invariants (non-negative
  balances, unique usernames) and `Total`, the sum of all balances, with
  lemmas for updating and adding accounts.
- `queries.dfy` (`Queries`): `read_user`, `perform_transfer` and
  `get_user_transactions` of `transactions/api/queries.py`.
- `routes.dfy` (`Routes`): the ledger state, its invariant `Valid`, and the
  handlers `send_money`, `update_balance` and `get_transactions` of
  `transactions/api/routes.py`.
- `properties.dfy` (`Properties`): invariant preservation, conservation, and
  lemmas that relate the operations to each other.

Inputs the service takes from its environment are parameters of the model:

- the authenticated caller is an `AccountId`;
- the clock reading `datetime.now()` is a `Timestamp` (`now`);
- a failure while committing the transfer is the flag `commitFails`;
- the record id `uuid4()` is the ledger's counter `nextTxId`.

How the model reads some paths of the code:

- Locks are taken recipient first, and no deterministic lock order is
  enforced. The model is sequential, so lock order has no effect in it.
- A sender that vanished before the lock makes `.one()` raise an exception
  that is not an HTTP error. The handler answers 500 and then tries to store
  a `failed` record; `Queries.PerformTransfer` returns `Internal` on that
  path. The model stores that record. A database that enforces the record's
  foreign keys would refuse it (see "## Left out").
- A username that matches several rows makes `one_or_none` raise outside the
  attempt stage. The answer is 500 and no record is written. The ledger
  invariant (unique usernames) rules this out.

## Model

| member | source | states |
|---|---|---|
| `Schemas.ParseStatus` | transactions/api/schemas.py:12-14 | a status is read only from the names `succeed` and `failed`, and reading gives back the status with that name; the listing binds its status parameter through it |
| `Schemas.StatusRoundTrip` | transactions/api/schemas.py:12-14 | the status enumeration has exactly two members, each with its wire name, and name and status convert both ways |
| `Schemas.NewUser` | transactions/api/schemas.py:17-22 | a newly created account has balance 0 and is active |
| `Schemas.ParseParams` | transactions/api/schemas.py:34-39 | listing parameters are accepted iff limit is in 1..100 and offset ≥ 0; an absent limit is 100 and an absent offset is 0; otherwise 422 |
| `Schemas.ParseTransfer` | transactions/api/schemas.py:42-44 | a transfer request is accepted iff its amount is strictly positive; otherwise 422 |
| `Queries.ReadUser` | transactions/api/queries.py:9-12 | lookup by username: not found iff no account has it; found names the one account with it; an error iff two accounts share it, which unique usernames exclude |
| `Queries.PerformTransfer` | transactions/api/queries.py:35-57 | success iff recipient and sender exist, the balance covers the amount and the commit succeeds; vanished recipient is 422; vanished sender is 500; short balance is 400; every error leaves the store unchanged; on success the sender loses and the recipient gains exactly `amount` and no other account changes |
| `Queries.TransferConserves` | transactions/api/queries.py:50-55 | every transfer attempt leaves the sum of all balances unchanged |
| `Queries.TransferKeepsNonNegative` | transactions/api/queries.py:46-51 | a positive transfer keeps every balance non-negative |
| `Queries.TransferWholeBalance` | transactions/api/queries.py:46-50 | transferring exactly the sender's balance succeeds and leaves the sender at 0 |
| `Queries.Filter` | transactions/api/queries.py:23-29 | a record is in the filtered log iff it is in the log, the user is its sender or recipient, its date is within the given inclusive bounds, and its status is the given one |
| `Queries.FilterAppend` | transactions/api/queries.py:23-29 | filtering a log extended by one record extends the filtered log by that record exactly when it matches |
| `Queries.Page` | transactions/api/queries.py:30 | the page is the input with `offset` entries dropped and at most `limit` kept, and empty when the offset is past the end |
| `Queries.GetUserTransactions` | transactions/api/queries.py:22-32 | the listing holds the filtered log from position `offset` on, element by element, and exactly min(`limit`, matches − `offset`) records (none when the offset is past the end) |
| `Routes.SendMoney` | transactions/api/routes.py:17-50 | a non-positive amount, an unknown recipient or a self-transfer changes nothing and appends no record; otherwise exactly one record is appended, carrying the next id, the amount, both parties and the time, with status `succeed` iff the transfer succeeded; domain errors keep their own code and other failures are 500; on any error the balances are unchanged; on every path no account is added, removed, renamed or deactivated, only balances move |
| `Routes.UpdateBalance` | transactions/api/routes.py:58-70 | refused with 400 iff balance + delta < 0, changing nothing; otherwise the balance becomes balance + delta ≥ 0; no record is written and no other account changes |
| `Routes.GetTransactions` | transactions/api/routes.py:73-81 | invalid paging parameters or an unknown status name are 422; otherwise, when both dates are given and from > to, the request is refused with 400; an accepted request returns exactly the page `GetUserTransactions` gives for the bound parameters, so every listed record is in the log, involves the caller, lies within the bounds and has the status asked for, and there are at most `limit` of them |
| `Properties.SendMoneyPreservesValid` | transactions/api/routes.py:25-48 | a transfer request on any path keeps balances non-negative and usernames unique, and keeps every record positive, between two distinct accounts and with a unique id |
| `Properties.SendMoneyConserves` | transactions/api/routes.py:35-48 | a transfer request on any path leaves the sum of all balances unchanged |
| `Properties.UpdateBalancePreservesValid` | transactions/api/routes.py:64-68 | a balance adjustment keeps the ledger invariant |
| `Properties.UpdateBalanceShiftsTotal` | transactions/api/routes.py:64-68 | a successful adjustment changes the sum of all balances by exactly the delta, a refused one by nothing |
| `Properties.UpdateBalanceUndo` | transactions/api/routes.py:64-67 | after a successful adjustment by delta, adjusting by −delta succeeds and restores the ledger |
| `Properties.RegisterPreservesValid` | auth/api/routes.py:27-32 | adding a new account under an unused username keeps the ledger invariant and the sum of balances |
| `Properties.SentRecordListed` | transactions/api/routes.py:33-48 | for any user and any filters, a transfer attempt extends that user's filtered log by its record exactly when the record matches, after the earlier ones |
| `Properties.SentRecordInListing` | transactions/api/routes.py:73-81 | after a transfer attempt, the listing handler shows its record to the sender and to the recipient, as the last record of the page, whenever the filters admit it and its position falls inside the requested page |
| `Properties.RepeatedSendDebitsTwice` | transactions/api/routes.py:33-48 | the same transfer sent twice with enough funds succeeds twice, debits twice and appends two records with different ids |

## Left out

- Row locking, lock order, deadlock and concurrent interleavings
  (`with_for_update`). Every handler is one atomic step. In `Routes.SendMoney`
  the transfer re-reads the store the validation read, so its 422
  "Recipient was deleted" branch can only arise when `Queries.PerformTransfer`
  is used on its own.
- SQLAlchemy session and rollback behaviour after a failed commit. The model
  reads a commit failure as "500, `failed` record, balances unchanged". What
  the session does after the failure is not modelled.
- The success message and the balance it echoes, and every log line.
- `get_balance` (transactions/api/routes.py:53-55), a plain read of the caller's
  balance.
- The authentication service: password hashing, tokens, login, registration
  and the resolution of the caller. The caller is an input. `Routes.UpdateBalance`
  requires the caller to be in the store, because the caller was resolved
  from it. Registration appears only as the assumption that usernames are
  unique, with `Properties.RegisterPreservesValid` as the step that keeps it.
- The password column of an account.
- The order of the listing. The query in transactions/api/queries.py:23-31
  has no ordering clause, so the database may return the rows, and so the
  pages, in any order. The model lists records in log order. Two promises
  hold only because of that choice: in `Queries.GetUserTransactions`, the
  i-th listed record is the (offset + i)-th match of the log; in
  `Properties.SentRecordListed` and `Properties.SentRecordInListing`, the new
  record comes after the earlier ones.
- `Routes.SendMoney`: the foreign keys of a record (transactions/api/schemas.py:30-31)
  are not modelled. When the sender vanished before the attempt, the model
  appends a `failed` record that names a missing account. A database that
  enforces the keys refuses that record at transactions/api/routes.py:44; the
  error escapes the handler, so the answer is still 500 but no record is
  written. Which database backs the service is configuration, outside the
  model.
- `datetime.now()` and `uuid4()`, which become the `now` parameter and the
  `nextTxId` counter.
- Integer width. Python integers are unbounded, and so are the model's. The
  database column's width is not modelled.
- `update_user` and `create_transaction`, which are "store the new row" and
  "append the record". They are a map update and a sequence append inside the
  handlers.

=== FILE: balances.dfy ===
/** The account store as a finite map from account id to account row, and
    the sum of all balances in it, the quantity a transfer conserves. */
module Balances {
  import opened Schemas

  type Accounts = map<AccountId, User>

  /** Every balance in the store is non-negative. */
  ghost predicate NonNegative(m: Accounts) {
    forall id :: id in m ==> m[id].balance >= 0
  }

  /** No two accounts share a username (registration refuses duplicates). */
  ghost predicate UniqueUsernames(m: Accounts) {
    forall a, b :: a in m && b in m && m[a].username == m[b].username ==> a == b
  }

  /** The sum of the balances of the accounts in `ks`. */
  ghost function SumOver(m: Accounts, ks: set<AccountId>): int
    requires ks <= m.Keys
    decreases ks
  {
    if ks == {} then 0
    else
      var k :| k in ks;
      m[k].balance + SumOver(m, ks - {k})
  }

  /** The sum of all balances in the store. */
  ghost function Total(m: Accounts): int {
    SumOver(m, m.Keys)
  }

  /** The sum splits off any one account, not only the one SumOver picks. */
  lemma {:induction false} SumOverRemove(m: Accounts, ks: set<AccountId>, k: AccountId)
    requires ks <= m.Keys && k in ks
    ensures SumOver(m, ks) == m[k].balance + SumOver(m, ks - {k})
    decreases ks
  {
    var j :| j in ks && SumOver(m, ks) == m[j].balance + SumOver(m, ks - {j});
    if j != k {
      SumOverRemove(m, ks - {j}, k);
      SumOverRemove(m, ks - {k}, j);
      assert ks - {j} - {k} == ks - {k} - {j};
    }
  }

  /** The sum over `ks` reads only the balances of the accounts in `ks`. */
  lemma {:induction false} SumOverFrame(m: Accounts, m': Accounts, ks: set<AccountId>)
    requires ks <= m.Keys && ks <= m'.Keys
    requires forall k :: k in ks ==> m[k].balance == m'[k].balance
    ensures SumOver(m, ks) == SumOver(m', ks)
    decreases ks
  {
    if ks != {} {
      var k :| k in ks && SumOver(m, ks) == m[k].balance + SumOver(m, ks - {k});
      SumOverRemove(m', ks, k);
      SumOverFrame(m, m', ks - {k});
    }
  }

  /** Replacing one existing account changes the sum by exactly the change
      of that account's balance. */
  lemma TotalUpdate(m: Accounts, k: AccountId, u: User)
    requires k in m
    ensures Total(m[k := u]) == Total(m) - m[k].balance + u.balance
  {
    var m' := m[k := u];
    assert m'.Keys == m.Keys;
    SumOverRemove(m, m.Keys, k);
    SumOverRemove(m', m.Keys, k);
    SumOverFrame(m, m', m.Keys - {k});
  }

  /** Adding a new account adds its balance to the sum. */
  lemma TotalAdd(m: Accounts, k: AccountId, u: User)
    requires k !in m
    ensures Total(m[k := u]) == Total(m) + u.balance
  {
    var m' := m[k := u];
    assert m'.Keys - {k} == m.Keys;
    SumOverRemove(m', m'.Keys, k);
    SumOverFrame(m, m', m.Keys);
  }
}

=== FILE: properties.dfy ===
/** Properties that relate the handlers to the ledger invariant, to the sum
    of all balances, and to each other. */
module Properties {
  import opened Schemas
  import opened Balances
  import opened Queries
  import opened Routes

  /** A transfer request, whatever its outcome, keeps the ledger invariant. */
  lemma SendMoneyPreservesValid(
    l: Ledger, sender: AccountId, username: string, amount: int,
    now: Timestamp, commitFails: bool)
    requires Valid(l)
    ensures Valid(SendMoney(l, sender, username, amount, now, commitFails).ledger)
  {
  }

  /** A transfer request never creates or destroys funds: the sum of all
      balances is the same after it, on every path. */
  lemma SendMoneyConserves(
    l: Ledger, sender: AccountId, username: string, amount: int,
    now: Timestamp, commitFails: bool)
    ensures Total(SendMoney(l, sender, username, amount, now, commitFails).ledger.accounts)
         == Total(l.accounts)
  {
    if Attempted(l, sender, username, amount) {
      var recipient := ReadUser(l.accounts, username).id;
      TransferConserves(l.accounts, sender, recipient, amount, commitFails);
    }
  }

  /** A balance adjustment keeps the ledger invariant. */
  lemma UpdateBalancePreservesValid(l: Ledger, user: AccountId, delta: int)
    requires Valid(l) && user in l.accounts
    ensures Valid(UpdateBalance(l, user, delta).ledger)
  {
  }

  /** A successful adjustment changes the sum of all balances by exactly
      `delta`; a rejected one does not change it. */
  lemma UpdateBalanceShiftsTotal(l: Ledger, user: AccountId, delta: int)
    requires user in l.accounts
    ensures
      var r := UpdateBalance(l, user, delta);
      Total(r.ledger.accounts) == Total(l.accounts) + (if r.result.Ok? then delta else 0)
  {
    var u := l.accounts[user];
    if u.balance + delta >= 0 {
      TotalUpdate(l.accounts, user, u.(balance := u.balance + delta));
    }
  }

  /** After a successful adjustment by `delta`, adjusting by `-delta`
      succeeds and restores the ledger. */
  lemma UpdateBalanceUndo(l: Ledger, user: AccountId, delta: int)
    requires user in l.accounts && l.accounts[user].balance >= 0
    requires UpdateBalance(l, user, delta).result.Ok?
    ensures
      var r := UpdateBalance(UpdateBalance(l, user, delta).ledger, user, -delta);
      r.result.Ok? && r.ledger == l
  {
  }

  /** Registering a fresh account under a fresh username keeps the ledger
      invariant and does not change the sum of all balances. */
  lemma RegisterPreservesValid(l: Ledger, id: AccountId, username: string)
    requires Valid(l)
    requires id !in l.accounts
    requires forall other :: other in l.accounts ==> l.accounts[other].username != username
    ensures Valid(l.(accounts := l.accounts[id := NewUser(username)]))
    ensures Total(l.accounts[id := NewUser(username)]) == Total(l.accounts)
  {
    TotalAdd(l.accounts, id, NewUser(username));
  }

  /** The record an attempted transfer appends is added, after the earlier
      records, to the filtered log of each party whose filter it matches,
      and to no other. */
  lemma SentRecordListed(
    l: Ledger, sender: AccountId, username: string, amount: int,
    now: Timestamp, commitFails: bool, user: AccountId, p: TransactionsParams)
    requires Attempted(l, sender, username, amount)
    ensures
      var r := SendMoney(l, sender, username, amount, now, commitFails);
      var t := r.ledger.log[|l.log|];
      Filter(r.ledger.log, user, p) ==
        Filter(l.log, user, p) + (if Matches(t, user, p) then [t] else [])
  {
    var r := SendMoney(l, sender, username, amount, now, commitFails);
    var t := r.ledger.log[|l.log|];
    assert r.ledger.log == l.log + [t];
    FilterAppend(l.log, t, user, p);
  }

  /** The listing handler shows the record a transfer just appended to a
      party of it whose filters admit it, whenever its position falls inside
      the requested page: it is the last record of the page. */
  lemma SentRecordInListing(
    l: Ledger, sender: AccountId, username: string, amount: int,
    now: Timestamp, commitFails: bool, party: AccountId,
    limit: int, offset: int, dateFrom: Option<Timestamp>, dateTo: Option<Timestamp>,
    statusName: Option<string>)
    requires Attempted(l, sender, username, amount)
    requires party == sender || party == ReadUser(l.accounts, username).id
    requires 0 < limit <= MaxLimit && 0 <= offset
    requires statusName.Some? ==> ParseStatus(statusName.value).Some?
    requires dateFrom.Some? ==> dateFrom.value <= now
    requires dateTo.Some? ==> now <= dateTo.value
    requires
      var r := SendMoney(l, sender, username, amount, now, commitFails);
      statusName.Some? ==> StatusName(r.ledger.log[|l.log|].status) == statusName.value
    requires
      var p := TransactionsParams(limit, offset, dateFrom, dateTo,
        if statusName.Some? then ParseStatus(statusName.value) else None);
      offset <= |Filter(l.log, party, p)| < offset + limit
    ensures
      var r := SendMoney(l, sender, username, amount, now, commitFails);
      var listing := GetTransactions(r.ledger, party, Some(limit), Some(offset), dateFrom, dateTo, statusName);
      listing.Ok? && |listing.value| > 0 && listing.value[|listing.value| - 1] == r.ledger.log[|l.log|]
  {
    var r := SendMoney(l, sender, username, amount, now, commitFails);
    var t := r.ledger.log[|l.log|];
    var p := TransactionsParams(limit, offset, dateFrom, dateTo,
      if statusName.Some? then ParseStatus(statusName.value) else None);
    assert p.status.Some? ==> t.status == p.status.value by {
      if statusName.Some? {
        StatusRoundTrip(t.status);
      }
    }
    assert Matches(t, party, p);
    SentRecordListed(l, sender, username, amount, now, commitFails, party, p);
    var f := Filter(r.ledger.log, party, p);
    assert f == Filter(l.log, party, p) + [t];
  }

  /** Transfers are not idempotent: the same request sent twice, both times
      successfully, debits the sender twice and leaves two records with
      different ids. */
  lemma RepeatedSendDebitsTwice(
    l: Ledger, sender: AccountId, username: string, amount: int,
    now: Timestamp, now': Timestamp)
    requires sender in l.accounts && l.accounts[sender].balance >= 2 * amount
    requires Attempted(l, sender, username, amount)
    ensures
      var r1 := SendMoney(l, sender, username, amount, now, false);
      var r2 := SendMoney(r1.ledger, sender, username, amount, now', false);
      && r1.result.Ok? && r2.result.Ok?
      && r2.ledger.accounts[sender].balance == l.accounts[sender].balance - 2 * amount
      && |r2.ledger.log| == |l.log| + 2
      && r2.ledger.log[|l.log|].id != r2.ledger.log[|l.log| + 1].id
  {
  }
}

=== FILE: queries.dfy ===
/** The store-level operations of the transactions service: looking a user
    up by username, the balance transfer itself, and the filtered, paged
    listing of a user's transaction records. */
module Queries {
  import opened Schemas
  import opened Balances

  /** The three outcomes of a lookup that expects at most one row. */
  datatype Lookup = NotFound | Found(id: AccountId) | Ambiguous

  /** Any two members of a one-element set are equal. */
  lemma SingletonMembers(s: set<AccountId>)
    requires |s| == 1
    ensures forall a, b :: a in s && b in s ==> a == b
  {
    var x :| x in s;
    assert |s - {x}| == 0;
    assert s - {x} == {};
  }

  /** A set of two or more elements holds two distinct ones. */
  lemma TwoMembers(s: set<AccountId>)
    requires |s| >= 2
    ensures exists a, b :: a in s && b in s && a != b
  {
    var a :| a in s;
    assert |s - {a}| >= 1;
    var b :| b in s - {a};
  }

  /** The account with the given username: no row, the one row, or an
      error when several rows match. */
  function ReadUser(m: Accounts, username: string): (r: Lookup)
    ensures r.NotFound? <==> forall id :: id in m ==> m[id].username != username
    ensures r.Found? ==> r.id in m && m[r.id].username == username
    ensures r.Found? ==> forall id :: id in m && m[id].username == username ==> id == r.id
    ensures r.Ambiguous? <==>
      exists a, b :: a in m && b in m && a != b
        && m[a].username == username && m[b].username == username
    ensures UniqueUsernames(m) ==> !r.Ambiguous?
  {
    var ids := set id | id in m && m[id].username == username;
    assert forall id :: id in m && m[id].username == username ==> id in ids;
    if |ids| == 0 then
      assert ids == {};
      NotFound
    else if |ids| == 1 then
      SingletonMembers(ids);
      var id :| id in ids;
      Found(id)
    else
      TwoMembers(ids);
      Ambiguous
  }

  /** The result of one transfer attempt: the store afterwards and the
      outcome reported to the caller. */
  datatype Attempt = Attempt(accounts: Accounts, outcome: Result<()>)

  /** Moves `amount` from `sender` to `recipient`, re-reading both rows.
      `commitFails` stands for a failure of the final commit. */
  function PerformTransfer(
    m: Accounts, sender: AccountId, recipient: AccountId, amount: int, commitFails: bool
  ): (a: Attempt)
    ensures a.outcome.Ok? <==>
      recipient in m && sender in m && m[sender].balance >= amount && !commitFails
    ensures recipient !in m ==> a.outcome == Err(RecipientDeleted)
    ensures recipient in m && sender !in m ==> a.outcome == Err(Internal)
    ensures recipient in m && sender in m && m[sender].balance < amount ==>
      a.outcome == Err(InsufficientFunds)
    ensures recipient in m && sender in m && m[sender].balance >= amount && commitFails ==>
      a.outcome == Err(Internal)
    ensures a.outcome.Err? ==> a.accounts == m
    ensures a.accounts.Keys == m.Keys
    ensures forall id :: id in m && id != sender && id != recipient ==> a.accounts[id] == m[id]
    ensures forall id :: id in m ==>
      a.accounts[id].username == m[id].username && a.accounts[id].active == m[id].active
    ensures a.outcome.Ok? && sender != recipient ==>
      a.accounts[sender].balance == m[sender].balance - amount &&
      a.accounts[recipient].balance == m[recipient].balance + amount
    ensures a.outcome.Ok? && sender == recipient ==> a.accounts == m
  {
    if recipient !in m then Attempt(m, Err(RecipientDeleted))
    else if sender !in m then Attempt(m, Err(Internal))
    else if m[sender].balance < amount then Attempt(m, Err(InsufficientFunds))
    else if commitFails then Attempt(m, Err(Internal))
    else
      var debited := m[sender := m[sender].(balance := m[sender].balance - amount)];
      var credited := debited[recipient := debited[recipient].(balance := debited[recipient].balance + amount)];
      Attempt(credited, Ok(()))
  }

  /** Every transfer attempt, successful or not, leaves the sum of all
      balances unchanged. */
  lemma TransferConserves(
    m: Accounts, sender: AccountId, recipient: AccountId, amount: int, commitFails: bool)
    ensures Total(PerformTransfer(m, sender, recipient, amount, commitFails).accounts) == Total(m)
  {
    var a := PerformTransfer(m, sender, recipient, amount, commitFails);
    if a.outcome.Ok? {
      var debited := m[sender := m[sender].(balance := m[sender].balance - amount)];
      TotalUpdate(m, sender, debited[sender]);
      TotalUpdate(debited, recipient, a.accounts[recipient]);
      assert a.accounts == debited[recipient := a.accounts[recipient]];
    }
  }

  /** A positive transfer out of a store with no negative balance leaves no
      negative balance: the sender can go down to exactly zero, no further. */
  lemma TransferKeepsNonNegative(
    m: Accounts, sender: AccountId, recipient: AccountId, amount: int, commitFails: bool)
    requires NonNegative(m)
    requires amount > 0
    ensures NonNegative(PerformTransfer(m, sender, recipient, amount, commitFails).accounts)
  {
  }

  /** The boundary case: moving the whole balance succeeds and empties the
      sender's account. */
  lemma TransferWholeBalance(
    m: Accounts, sender: AccountId, recipient: AccountId)
    requires sender in m && recipient in m && sender != recipient
    ensures
      var a := PerformTransfer(m, sender, recipient, m[sender].balance, false);
      a.outcome.Ok? && a.accounts[sender].balance == 0
  {
  }

  /** Whether a record belongs in the listing: the user takes part in it,
      its date lies within the given inclusive bounds, and its status is the
      requested one. */
  predicate Matches(t: Transaction, user: AccountId, p: TransactionsParams) {
    && (t.sender == user || t.recipient == user)
    && (p.dateFrom.Some? ==> t.date >= p.dateFrom.value)
    && (p.dateTo.Some? ==> t.date <= p.dateTo.value)
    && (p.status.Some? ==> t.status == p.status.value)
  }

  /** The records of `log` that match, in log order. */
  function Filter(log: seq<Transaction>, user: AccountId, p: TransactionsParams): (r: seq<Transaction>)
    ensures |r| <= |log|
    ensures forall t :: t in r <==> t in log && Matches(t, user, p)
  {
    if log == [] then []
    else
      var rest := Filter(log[1..], user, p);
      assert forall t :: t in log <==> t == log[0] || t in log[1..];
      if Matches(log[0], user, p) then [log[0]] + rest else rest
  }

  /** Filtering an extended log extends the filtered log by the new record
      exactly when it matches. */
  lemma {:induction false} FilterAppend(
    log: seq<Transaction>, t: Transaction, user: AccountId, p: TransactionsParams)
    ensures Filter(log + [t], user, p) ==
      Filter(log, user, p) + (if Matches(t, user, p) then [t] else [])
  {
    if log == [] {
      assert log + [t] == [t];
    } else {
      assert (log + [t])[1..] == log[1..] + [t];
      FilterAppend(log[1..], t, user, p);
    }
  }

  /** `offset` entries dropped, then at most `limit` entries kept. */
  function Page(s: seq<Transaction>, offset: nat, limit: nat): (r: seq<Transaction>)
    ensures offset >= |s| ==> r == []
    ensures offset < |s| ==> |r| == (if |s| - offset <= limit then |s| - offset else limit)
    ensures forall i :: 0 <= i < |r| ==> offset + i < |s| && r[i] == s[offset + i]
  {
    if offset >= |s| then []
    else
      var rest := s[offset..];
      if |rest| <= limit then rest else rest[..limit]
  }

  /** The listing of a user's transaction records: the matching records
      from position `offset` on, as many as there are up to `limit`. */
  function GetUserTransactions(
    log: seq<Transaction>, user: AccountId, p: TransactionsParams
  ): (r: seq<Transaction>)
    requires ValidParams(p)
    ensures |r| <= p.limit
    ensures
      var f := Filter(log, user, p);
      |r| == (if p.offset >= |f| then 0 else if |f| - p.offset <= p.limit then |f| - p.offset else p.limit)
    ensures forall t :: t in r ==> t in log && Matches(t, user, p)
    ensures forall i :: 0 <= i < |r| ==>
      p.offset + i < |Filter(log, user, p)| && r[i] == Filter(log, user, p)[p.offset + i]
  {
    Page(Filter(log, user, p), p.offset, p.limit)
  }
}

=== FILE: routes.dfy ===
/** The request handlers of the transactions service over an explicit ledger
    state: the account store, the append-only transaction log, and the
    counter that supplies fresh transaction ids. */
module Routes {
  import opened Schemas
  import opened Balances
  import opened Queries

  datatype Ledger = Ledger(accounts: Accounts, log: seq<Transaction>, nextTxId: TxId)

  /** What a handler leaves behind: the new ledger and the caller's answer. */
  datatype Reply = Reply(ledger: Ledger, result: Result<()>)

  /** The ledger invariant: balances are non-negative, usernames are unique,
      and every record carries a positive amount between two different
      accounts and an id that is below the counter and used once. */
  ghost predicate Valid(l: Ledger) {
    && NonNegative(l.accounts)
    && UniqueUsernames(l.accounts)
    && (forall i :: 0 <= i < |l.log| ==>
          l.log[i].id < l.nextTxId && l.log[i].amount > 0 && l.log[i].sender != l.log[i].recipient)
    && (forall i, j :: 0 <= i < j < |l.log| ==> l.log[i].id != l.log[j].id)
  }

  /** Whether a transfer request gets past validation into the attempt
      stage: a positive amount, a recipient that exists, and one that is not
      the sender. */
  predicate Attempted(l: Ledger, sender: AccountId, username: string, amount: int) {
    var found := ReadUser(l.accounts, username);
    amount > 0 && found.Found? && found.id != sender
  }

  /** The transfer handler. Validation failures change nothing; once
      validation passes, exactly one record is appended whatever the
      transfer's outcome. `now` is the clock reading for the record and
      `commitFails` stands for a failure while committing the transfer. */
  function SendMoney(
    l: Ledger, sender: AccountId, username: string, amount: int,
    now: Timestamp, commitFails: bool
  ): (r: Reply)
    // validation, before any record is written
    ensures amount <= 0 ==> r == Reply(l, Err(InvalidRequest))
    ensures amount > 0 && (forall id :: id in l.accounts ==> l.accounts[id].username != username) ==>
      r == Reply(l, Err(InvalidRecipient))
    ensures amount > 0 && ReadUser(l.accounts, username) == Found(sender) ==>
      r == Reply(l, Err(SelfTransfer))
    ensures amount > 0 && ReadUser(l.accounts, username).Ambiguous? ==>
      r == Reply(l, Err(Internal))
    ensures !Attempted(l, sender, username, amount) ==> r.ledger == l && r.result.Err?
    // the attempt stage: exactly one record
    ensures |r.ledger.log| == |l.log| + (if Attempted(l, sender, username, amount) then 1 else 0)
    ensures r.ledger.log[..|l.log|] == l.log
    ensures Attempted(l, sender, username, amount) ==>
      var t := r.ledger.log[|l.log|];
      && t.id == l.nextTxId
      && r.ledger.nextTxId == l.nextTxId + 1
      && t.amount == amount
      && t.sender == sender
      && t.recipient == ReadUser(l.accounts, username).id
      && t.date == now
      && (t.status == Succeed <==> r.result.Ok?)
    // the outcome of the attempt
    ensures r.result.Ok? <==>
      Attempted(l, sender, username, amount) && sender in l.accounts &&
      l.accounts[sender].balance >= amount && !commitFails
    ensures (Attempted(l, sender, username, amount) && sender in l.accounts &&
             l.accounts[sender].balance < amount) ==>
      r.result == Err(InsufficientFunds)
    ensures (Attempted(l, sender, username, amount) &&
             (sender !in l.accounts || (l.accounts[sender].balance >= amount && commitFails))) ==>
      r.result == Err(Internal)
    ensures r.result.Err? ==> r.ledger.accounts == l.accounts
    // only balances move: no account appears or disappears, none is renamed or deactivated
    ensures r.ledger.accounts.Keys == l.accounts.Keys
    ensures forall id :: id in l.accounts ==>
      && r.ledger.accounts[id].username == l.accounts[id].username
      && r.ledger.accounts[id].active == l.accounts[id].active
    ensures r.result.Ok? ==>
      var recipient := ReadUser(l.accounts, username).id;
      && r.ledger.accounts[sender].balance == l.accounts[sender].balance - amount
      && r.ledger.accounts[recipient].balance == l.accounts[recipient].balance + amount
      && (forall id :: id in l.accounts && id != sender && id != recipient ==>
            r.ledger.accounts[id] == l.accounts[id])
  {
    match ParseTransfer(username, amount)
    case Err(e) => Reply(l, Err(e))
    case Ok(request) =>
      match ReadUser(l.accounts, request.username)
      case NotFound => Reply(l, Err(InvalidRecipient))
      // several rows raise outside the attempt stage: a server error, no record
      case Ambiguous => Reply(l, Err(Internal))
      case Found(recipient) =>
        if recipient == sender then Reply(l, Err(SelfTransfer))
        else
          var attempt := PerformTransfer(l.accounts, sender, recipient, request.amount, commitFails);
          var status := if attempt.outcome.Ok? then Succeed else Failed;
          var record := Transaction(l.nextTxId, request.amount, now, status, sender, recipient);
          Reply(Ledger(attempt.accounts, l.log + [record], l.nextTxId + 1), attempt.outcome)
  }

  /** The balance adjustment handler: adds a signed `delta` to the caller's
      balance unless the result would be negative. No record is written. */
  function UpdateBalance(l: Ledger, user: AccountId, delta: int): (r: Reply)
    requires user in l.accounts
    ensures r.ledger.log == l.log && r.ledger.nextTxId == l.nextTxId
    ensures r.result.Err? <==> l.accounts[user].balance + delta < 0
    ensures r.result.Err? ==> r == Reply(l, Err(InsufficientFunds))
    ensures r.ledger.accounts.Keys == l.accounts.Keys
    ensures r.ledger.accounts[user].username == l.accounts[user].username
    ensures r.ledger.accounts[user].active == l.accounts[user].active
    ensures r.result.Ok? ==>
      r.ledger.accounts[user].balance == l.accounts[user].balance + delta >= 0
    ensures forall id :: id in l.accounts && id != user ==> r.ledger.accounts[id] == l.accounts[id]
  {
    var u := l.accounts[user];
    if u.balance + delta < 0 then Reply(l, Err(InsufficientFunds))
    else Reply(l.(accounts := l.accounts[user := u.(balance := u.balance + delta)]), Ok(()))
  }

  /** The transaction listing handler: binds the query parameters (the
      status arrives as its wire name), rejects an inverted date range, then
      lists the caller's records. */
  function GetTransactions(
    l: Ledger, user: AccountId,
    limit: Option<int>, offset: Option<int>,
    dateFrom: Option<Timestamp>, dateTo: Option<Timestamp>,
    statusName: Option<string>
  ): (r: Result<seq<Transaction>>)
    ensures r.Err? <==>
      || !((limit.None? || 0 < limit.value <= MaxLimit) && (offset.None? || 0 <= offset.value))
      || (statusName.Some? && ParseStatus(statusName.value).None?)
      || (dateFrom.Some? && dateTo.Some? && dateFrom.value > dateTo.value)
    ensures (|| !((limit.None? || 0 < limit.value <= MaxLimit) && (offset.None? || 0 <= offset.value))
             || (statusName.Some? && ParseStatus(statusName.value).None?)) ==>
      r == Err(InvalidRequest)
    ensures (&& (limit.None? || 0 < limit.value <= MaxLimit) && (offset.None? || 0 <= offset.value)
             && (statusName.None? || ParseStatus(statusName.value).Some?)
             && dateFrom.Some? && dateTo.Some? && dateFrom.value > dateTo.value) ==>
      r == Err(IncorrectDates)
    ensures r.Err? ==> r.error == InvalidRequest || r.error == IncorrectDates
    ensures r.Ok? ==> |r.value| <= (if limit.Some? then limit.value else DefaultLimit)
    ensures r.Ok? ==> forall t :: t in r.value ==>
      && t in l.log
      && (t.sender == user || t.recipient == user)
      && (dateFrom.Some? ==> dateFrom.value <= t.date)
      && (dateTo.Some? ==> t.date <= dateTo.value)
      && (statusName.Some? ==> StatusName(t.status) == statusName.value)
    // an accepted request gets exactly the page of the caller's matching records
    ensures r.Ok? ==>
      var p := TransactionsParams(
        if limit.Some? then limit.value else DefaultLimit,
        if offset.Some? then offset.value else DefaultOffset,
        dateFrom, dateTo,
        if statusName.Some? then ParseStatus(statusName.value) else None);
      ValidParams(p) && r.value == GetUserTransactions(l.log, user, p)
  {
    var status := if statusName.Some? then ParseStatus(statusName.value) else None;
    if statusName.Some? && status.None? then Err(InvalidRequest)
    else
      match ParseParams(limit, offset, dateFrom, dateTo, status)
      case Err(e) => Err(e)
      case Ok(p) =>
        if p.dateFrom.Some? && p.dateTo.Some? && p.dateFrom.value > p.dateTo.value then
          Err(IncorrectDates)
        else
          Ok(GetUserTransactions(l.log, user, p))
  }
}

=== FILE: schemas.dfy ===
/** Data model of the transactions service: accounts (users), transaction
    records, the query parameters of the transaction listing and the transfer
    request, together with the field constraints the request schemas impose
    before any handler runs. */
module Schemas {

  /** Account and record identities are opaque UUIDs in the service; here they
      are natural numbers. Datetimes are modelled as integers. */
  type AccountId = nat
  type TxId = nat
  type Timestamp = int

  datatype Option<T> = None | Some(value: T)

  /** Every error a caller of the core can observe, one per distinct
      outcome. `InsufficientFunds` covers both the transfer's and the balance
      adjustment's refusal; `Internal` covers every server error, whether
      the handler raises it or an exception escapes it. */
  datatype Error =
    | InvalidRequest      // a request field violates its schema constraint
    | InvalidRecipient    // the recipient username resolves to no account
    | SelfTransfer        // the recipient is the sender
    | RecipientDeleted    // the recipient vanished before it was locked
    | InsufficientFunds   // the balance cannot cover the debit
    | Internal            // any exception that is not an HTTP error
    | IncorrectDates      // date_from is later than date_to
  {
    /** The HTTP status code the service answers with. */
    function Code(): int {
      match this
      case InvalidRequest => 422
      case InvalidRecipient => 400
      case SelfTransfer => 400
      case RecipientDeleted => 422
      case InsufficientFunds => 400
      case Internal => 500
      case IncorrectDates => 400
    }
  }

  datatype Result<T> = Ok(value: T) | Err(error: Error)

  /** The status of a transaction record: a string enumeration with exactly
      two members. */
  datatype TransactionStatus = Succeed | Failed

  function StatusName(s: TransactionStatus): string {
    match s
    case Succeed => "succeed"
    case Failed => "failed"
  }

  /** Reading a status from its wire name, as the query parameter is parsed. */
  function ParseStatus(name: string): (r: Option<TransactionStatus>)
    ensures r.Some? ==> StatusName(r.value) == name
    ensures r.None? <==> name != "succeed" && name != "failed"
  {
    if name == "succeed" then Some(Succeed)
    else if name == "failed" then Some(Failed)
    else None
  }

  /** Every status has a wire name, and reading that name gives the status
      back: the enumeration has exactly the two members named. */
  lemma StatusRoundTrip(s: TransactionStatus)
    ensures ParseStatus(StatusName(s)) == Some(s)
    ensures StatusName(s) == "succeed" || StatusName(s) == "failed"
  {
  }

  /** An account row. The password hash belongs to the authentication
      service and is left out. */
  datatype User = User(username: string, balance: int, active: bool)

  /** A freshly registered account: empty balance, active. */
  function NewUser(username: string): (u: User)
    ensures u.username == username
    ensures u.balance == 0 && u.active
  {
    User(username, 0, true)
  }

  /** One audit record of a transfer attempt. */
  datatype Transaction = Transaction(
    id: TxId,
    amount: int,
    date: Timestamp,
    status: TransactionStatus,
    sender: AccountId,
    recipient: AccountId)

  /** The query parameters of the transaction listing, after defaults. */
  datatype TransactionsParams = TransactionsParams(
    limit: int,
    offset: int,
    dateFrom: Option<Timestamp>,
    dateTo: Option<Timestamp>,
    status: Option<TransactionStatus>)

  const DefaultLimit: int := 100
  const MaxLimit: int := 100
  const DefaultOffset: int := 0

  /** The field constraints: 0 < limit <= 100 and offset >= 0. */
  predicate ValidParams(p: TransactionsParams) {
    0 < p.limit <= MaxLimit && 0 <= p.offset
  }

  /** Binding the raw query parameters: an absent limit or offset takes its
      default, and a present one outside its range rejects the request. */
  function ParseParams(
    limit: Option<int>,
    offset: Option<int>,
    dateFrom: Option<Timestamp>,
    dateTo: Option<Timestamp>,
    status: Option<TransactionStatus>
  ): (r: Result<TransactionsParams>)
    ensures r.Ok? <==>
      (limit.None? || 0 < limit.value <= MaxLimit) && (offset.None? || 0 <= offset.value)
    ensures r.Err? ==> r.error == InvalidRequest
    ensures r.Ok? ==> ValidParams(r.value)
    ensures r.Ok? && limit.None? ==> r.value.limit == DefaultLimit
    ensures r.Ok? && offset.None? ==> r.value.offset == DefaultOffset
    ensures r.Ok? && limit.Some? ==> r.value.limit == limit.value
    ensures r.Ok? && offset.Some? ==> r.value.offset == offset.value
    ensures r.Ok? ==>
      r.value.dateFrom == dateFrom && r.value.dateTo == dateTo && r.value.status == status
  {
    var l := if limit.Some? then limit.value else DefaultLimit;
    var o := if offset.Some? then offset.value else DefaultOffset;
    var p := TransactionsParams(l, o, dateFrom, dateTo, status);
    if ValidParams(p) then Ok(p) else Err(InvalidRequest)
  }

  /** A transfer request: the recipient's username and a positive amount. */
  datatype Transfer = Transfer(username: string, amount: int)

  /** Binding the request body: the amount must be strictly positive. */
  function ParseTransfer(username: string, amount: int): (r: Result<Transfer>)
    ensures r.Ok? <==> amount > 0
    ensures r.Ok? ==> r.value.username == username && r.value.amount == amount
    ensures r.Err? ==> r.error == InvalidRequest
  {
    if amount > 0 then Ok(Transfer(username, amount)) else Err(InvalidRequest)
  }
}
